=== FILE: README.md ===
# Paged media carousel: scroll model, gesture arbiter and lazy-load gate

This project models, in Dafny, the pager engine of a media-showcase page
(`app/scripts/index.js`). `buildPagers` turns each `.pages` element into a horizontal carousel.
Its state is the offset `scrollX`, the derived `currentPage`, the `panning` flag, the prefetch
record `loadedPages`, the page-dot highlighting, and the gesture and wheel bookkeeping
(`lastDeltaX`, `pageAtPanStart`, `swiped`, `lastWheelDeltaX`, `wheelEnabled`). Touch gestures,
the mouse wheel, edge clicks and dot clicks all move the carousel through `scrollTo_`.
`scrollTo_` clamps the offset, rounds it to a page and prefetches the neighbours of a new
current page through `loadPageByIndex_`. Separately, `visibleProjectsUpdated_` marks a project
section "was-visible" the first time it intersects the viewport, and loads its first page.

The model is functional. An immutable `Pager` record holds the state. The input is a datatype
of normalized events: pan, swipe, pan end, wheel, edge and dot clicks, the two deferred timer
callbacks, and a video's `canplay`. Pure transition functions are folded over event sequences.

Modules:

- `Geometry`: `relayout_` widths, the clamp, and `Math.round` of a non-negative offset, which is
  `(2x + w) / (2w)` in integers.
- `Media`: the per-page lifecycle NotRequested → Requested → Ready, driven by `loadPage` and
  `canplay`. Each page counts its `loadPage` calls.
- `Carousel`: the pager state, `loadPageByIndex_`, `scrollTo_`, `snapToPage_`, the state after
  construction, and the pager invariant.
- `Arbiter`: the event handlers, `Step`, `Run`, and the gesture properties.
- `Visibility`: the rectangle test and the sticky was-visible mark.
- `Showcase`: the whole document. It holds the shared layout and one section per pager, and
  handles window scroll and resize. It carries the load-accounting invariant.
- `Scenarios`: concrete traces.

Inputs from outside the program are parameters. These are Hammer's normalized events, wheel
deltas, bounding rectangles, the viewport size, the screen and pager widths, and timer firings.

## Model

| member | source | states |
|---|---|---|
| Geometry.Relayout | app/scripts/index.js:162-167 | The peek is 16 px exactly on screens narrower than 480 px, otherwise 32 px. The spacing is 16 px. Peek, spacing, page, spacing and peek add up to the pager width. Pages have positive width exactly when the pager is wider than twice peek plus spacing. |
| Geometry.Clamp | app/scripts/index.js:248 | The result lies in `[0, hi]` and equals `x` inside that range. Below 0 it saturates to 0, above `hi` to `hi`, and it is 0 when `hi < 0`. |
| Geometry.RoundDiv | app/scripts/index.js:253 | The result is the integer nearest to `x / w`, with halves rounding up: `2wr <= 2x + w < 2w(r+1)`. |
| Geometry.RoundDivUnique | app/scripts/index.js:253 | Only one integer meets the rounding contract, so the current page is determined by the offset. |
| Media.LoadPage | app/scripts/index.js:366-378 | `loadPage` never moves a page back in its lifecycle, always leaves it requested, and makes it Ready exactly for an image or an already-loaded video. It keeps reachable states reachable and counts one call. |
| Media.CanPlay | app/scripts/index.js:369-372 | `canplay` makes a page Ready exactly when it is a requested video or already Ready. Otherwise it changes nothing. |
| Carousel.Fresh | app/scripts/index.js:199-202 | Before the closing scroll every page is unloaded and unrequested, no page is current, no dot is active and dots exist only when there is more than one page, no gesture is in progress, and the wheel is enabled with no previous delta (also lines 289-291 and 342-343). |
| Carousel.LoadPageByIndex | app/scripts/index.js:228-237 | An index outside `[0, numPages)` or already in `loadedPages` is ignored. Any other index joins `loadedPages`, and `loadPage` runs on that page only. Nothing else changes. |
| Carousel.PrefetchIdempotent | app/scripts/index.js:228-233 | Requesting the same index twice is the same as requesting it once. |
| Carousel.WindowMembers | app/scripts/index.js:257-261 | The prefetch window of page `c` is exactly the indices `c-1..c+1` that lie in `[0, numPages)`. |
| Carousel.PrefetchAround | app/scripts/index.js:257-261 | The three prefetch calls add exactly the window minus the pages already requested. Each added page is loaded once and no other page is touched. |
| Carousel.ActiveDots | app/scripts/index.js:263-265 | After a page change the dot of the current page is active when that page exists, every other dot is inactive, and a current page past the last index leaves no dot active. The number of dots equals the number of pages by the pager invariant `Inv`. |
| Carousel.AtMostOneDot | app/scripts/index.js:263-265 | Whatever the current page, no two dots are active at once. |
| Carousel.ScrollTo | app/scripts/index.js:239-267 | The offset is the clamp of `x` to `[0, (pageWidth+pageSpacing)(numPages-1)]`. The current page is the offset rounded by the page width. If the page index is unchanged, nothing but the offset changes. If it changed, the window is prefetched (when loads are on) and only the new page's dot is active. All other fields are untouched. |
| Carousel.EnterPage | app/scripts/index.js:254-266 | On a page change the new offset and page are recorded, the window around the page minus the pages already requested is prefetched when loads are on (nothing otherwise), exactly the new page's dot is active, and no other field changes. |
| Carousel.ScrollToPreservesInv | app/scripts/index.js:248-266 | Every scroll keeps the pager invariant: offset in bounds, current page equal to the rounded offset, dots showing it, requested indices in range. The prefetch gate only grows. |
| Carousel.ScrollToIdempotent | app/scripts/index.js:248-266 | Scrolling twice to the same offset equals scrolling once. |
| Carousel.SnapToPage | app/scripts/index.js:269-271 | A target at or below 0 lands on offset 0. A target at or beyond the last page lands on the maximum offset. A page in range lands exactly on its aligned offset. |
| Carousel.SnapIdempotent | app/scripts/index.js:269-271 | Navigating to the same page twice in a row leaves the state as after the first navigation. |
| Carousel.Build | app/scripts/index.js:361 | A built pager satisfies the invariant. With more than one page, `scrollTo_(0, false, false)` moves the current page from -1 to 0 and requests nothing. Smaller pagers keep -1. |
| Arbiter.OnPan | app/scripts/index.js:301-311 | After a swipe a pan is ignored. Otherwise it sets `panning`, records the pan-start page only if none is recorded, and scrolls by the change since the previous pan's delta. It then stores the new delta. |
| Arbiter.OnSwipe | app/scripts/index.js:314-325 | A swipe marks the gesture swiped, resets the pan delta, and snaps to the pan-start page plus one (any direction but right) or minus one. It schedules one panning clear. |
| Arbiter.OnPanEnd | app/scripts/index.js:327-338 | A pan end after a swipe only resets `swiped`. Without a swipe it snaps to the current page, resets the pan delta and schedules one panning clear. |
| Arbiter.WheelJumps | app/scripts/index.js:346-349 | A wheel event can jump only while the wheel is enabled, when the movement is mostly horizontal (`Abs(deltaX) > Abs(deltaY)`), above the 30 px threshold, after a previous wheel event, and with `Abs(deltaX)` strictly above the previous delta's size (a rising edge). |
| Arbiter.OnWheel | app/scripts/index.js:344-359 | The wheel delta is always recorded. A jump to the neighbouring page, with the cooldown started, happens only when `WheelJumps` holds. Otherwise nothing else changes. |
| Arbiter.OnPanClearTimer | app/scripts/index.js:319-323 | A scheduled clear ends the gesture: `panning` is false and no pan start is recorded. With nothing scheduled the event changes nothing. |
| Arbiter.OnCanPlay | app/scripts/index.js:369-372 | `canplay` on an existing page applies the lifecycle step `CanPlay` to that page and to no other; on a non-existent page it changes nothing. The prefetch record is untouched. |
| Arbiter.Step | app/scripts/index.js:221-224 | A pager of at most one page has no gesture, wheel, edge or dot handling. Such a pager ignores every event except its video's `canplay`. |
| Arbiter.Run | app/scripts/index.js:293-359 | Events keep the page count. A pager of at most one page is left exactly as it was by any run without `canplay` events, since it gets no gesture, wheel, edge or dot handlers. |
| Arbiter.StepPreservesInv | app/scripts/index.js:293-359 | Every event keeps the pager invariant and lets the prefetch gate only grow. |
| Arbiter.RunPreservesInv | app/scripts/index.js:228-237 | Along any event sequence the invariant holds. `loadedPages` only grows. `loadPage` runs exactly once for each index the gate records and for no other index. |
| Arbiter.SwipeExcludesPanEnd | app/scripts/index.js:314-338 | The pan end that follows a swipe does not snap. It only resets `swiped`. |
| Arbiter.PansIgnoredAfterSwipe | app/scripts/index.js:301-302 | Pans after a swipe in the same gesture change nothing. |
| Arbiter.PanSuppressesClicks | app/scripts/index.js:209-214 | After a pan of a gesture not yet swiped, clicks on the pager are suppressed. |
| Arbiter.PanningPersists | app/scripts/index.js:319-323 | Click suppression only ends with the deferred panning clear. |
| Arbiter.WheelDisabledPersists | app/scripts/index.js:351-354 | Once a jump disables the wheel, every event other than the cooldown's end leaves it disabled. |
| Arbiter.PansTelescope | app/scripts/index.js:301-311 | If a run of pans never reaches a clamp bound, the offset is `start + previousDelta - lastDelta`. The last delta is stored. The pan-start page is the page before the first pan, unless one was already recorded. |
| Arbiter.WheelCooldownIgnores | app/scripts/index.js:346-356 | During the cooldown a wheel event only records its delta. |
| Arbiter.WheelJumpOnlyOnce | app/scripts/index.js:349-355 | A wheel jump disables the wheel, and the next wheel event cannot jump. |
| Arbiter.NoJumpWithoutRise | app/scripts/index.js:349 | A wheel event whose delta is no larger than the previous event's never jumps; it only records its delta. |
| Arbiter.NoJumpWhenVertical | app/scripts/index.js:347 | A mostly vertical wheel event (`Abs(deltaX) <= Abs(deltaY)`) never jumps; it only records its horizontal delta. |
| Arbiter.EdgeClicksSaturate | app/scripts/index.js:274-277 | Prev-edge from page 0 or below lands on offset 0. Next-edge from the last page or beyond lands on the maximum offset. |
| Arbiter.DotClickAligns | app/scripts/index.js:280-282 | A dot click aligns its page exactly, and repeating it changes nothing. |
| Arbiter.RunConcat | app/scripts/index.js:293-359 | Events are applied strictly in delivery order. Two batches in sequence equal their concatenation. |
| Visibility.OnScreenIffOverlaps | app/scripts/index.js:100 | For a proper rectangle, `visibleProjectsUpdated_`'s not-visible test fails exactly when the rectangle shares a point with the viewport. |
| Visibility.OffScreen | app/scripts/index.js:100 | A rectangle that `visibleProjectsUpdated_`'s test calls not visible never shares a point with the viewport. |
| Visibility.LoadFirstPage | app/scripts/index.js:110 | `loadPage` runs on page 0 only, if there is one. The pager's prefetch record is not consulted or changed. |
| Visibility.Reveal | app/scripts/index.js:98-111 | A section already seen is not looked at again. A section becomes was-visible exactly when it was already, or when it is on screen now. When newly seen, its first page is loaded. |
| Visibility.RevealKeepsInv | app/scripts/index.js:105-110 | Marking a section seen and loading its first page keeps its pager's invariant, because neither touches the offset, the current page, the dots or the prefetch record. |
| Visibility.UpdateVisibility | app/scripts/index.js:94-112 | The never-visible set loses exactly the sections found on screen. Every section is updated independently. |
| Showcase.Boot | app/scripts/index.js:17-24 | After start-up nothing is in any prefetch record. A section is was-visible exactly when on screen. Each page has been loaded once if it is the first page of an on-screen section, and otherwise never. Every pager holds the pager invariant: offset in bounds, current page equal to the rounded offset, dots showing it. |
| Showcase.Apply | app/scripts/index.js:114-115 | A pager event changes only its own section and keeps the layout. A window scroll or resize runs the visibility update on every section. A scroll keeps the layout; a resize replaces it with the `relayout_` of the new screen and pager widths (line 190). |
| Showcase.ApplyPreservesDocInv | app/scripts/index.js:105-110 | Every input keeps the exact load accounting. Page `i` was loaded once if `i` is in `loadedPages`, plus once more if `i == 0` and the section was seen. |
| Showcase.RunPreservesDocInv | app/scripts/index.js:228-237 | The load accounting holds after any admissible input sequence. |
| Showcase.RunInputs | app/scripts/index.js:114-115 | Inputs are applied in delivery order, whether pager events (lines 293-359) or window scroll and resize. The layout stays valid and the number of sections is kept. |
| Showcase.ApplyKeepsPagersInv | app/scripts/index.js:114-115 | A pager event or a window scroll keeps every pager's invariant under the current layout. |
| Showcase.RunKeepsPagersInv | app/scripts/index.js:114-115 | Along any admissible input sequence without a resize, every pager keeps its invariant; with `Boot` this covers every state reached between resizes. |
| Showcase.LoadsBounded | app/scripts/index.js:106-110 | Pages other than the first are loaded at most once. The first page is loaded at most twice. A page is still NotRequested exactly when neither path has loaded it. |
| Showcase.UnseenSectionUntouched | app/scripts/index.js:98-103 | A section that gets no pager events and is off screen at every window event stays exactly as it was. So a section never scrolled into view requests no media. |
| Scenarios.SnapRequestsNeighbours | app/scripts/index.js:257-261 | With 5 pages of 300 px and 16 px spacing, clicking dot 2 aligns 632 px and sets the current page to 2. Pages 1 to 3 are requested; pages 0 and 4 are not. |
| Scenarios.RevisitRequestsOnce | app/scripts/index.js:229 | Moving 0 → 1 → 0 loads pages 0 to 2 once each. Returning loads nothing new. |
| Scenarios.SwipeResolvesGesture | app/scripts/index.js:314-338 | From page 1, pans of -10 and -40 followed by a left swipe end on page 2 at 632 px. The closing pan end does not snap again. |
| Scenarios.WheelJumpsAtFirstRisingEdge | app/scripts/index.js:346-355 | Wheel deltas 10, 40, 90, 95 on page 0 of 3: the delta 10 only records itself, the delta 40 jumps to page 1 (316 px) and disables the wheel, and 90 and 95 are swallowed by the cooldown. |
| Scenarios.CurrentPageCanPassLastIndex | app/scripts/index.js:253 | With two 20 px pages, aligning the last page gives current page 2, one past the last index. No dot is active and page 0 is not prefetched. |
| Scenarios.NextEdgeSkipsAPage | app/scripts/index.js:276-277 | With 13 pages of 300 px, aligning page 10 reports page 11. Next-edge then moves to page 12 (reported as 13). |
| Scenarios.PrevEdgeStuckAtEnd | app/scripts/index.js:253 | With 13 pages of 300 px the last page reports 13, so prev-edge leaves the pager unchanged and a backward wheel jump keeps the offset. |
| Scenarios.SwipeWithoutPanStartGoesToFirstPage | app/scripts/index.js:318 | For any layout, pager of more than one page and swipe direction: a swipe while no pan start is recorded lands on offset 0 and page 0, whatever page is showing. |
| Scenarios.SwipeFromThirdDotGoesToFirstPage | app/scripts/index.js:280-282 | After a dot click to page 3 of 5, which records no pan start, a left swipe reports page 0. |
| Scenarios.ResizeCanBreakClamp | app/scripts/index.js:190 | A resize narrowing the pages leaves a pager at 316 px, beyond the new 216 px maximum. The clamp invariant no longer holds until the next scroll. |
| Scenarios.FirstPageLoadedTwice | app/scripts/index.js:110 | The first page of a section visible at start-up is loaded by the visibility path. It is loaded again by the first navigation's prefetch. |

## Behaviours worth knowing

These follow directly from the code, and the model keeps them.

- **Range of the current page.** The current page is not confined to `[0, pageCount-1]`.
  The code rounds the offset by the page width alone, not by width plus spacing, so the
  reported page drifts upward along the pager and can reach or pass the page count
  (`CurrentPageCanPassLastIndex`, `NextEdgeSkipsAPage`). The model therefore proves
  `currentPage == round(scrollX / pageWidth)` and `currentPage >= 0`. At the end of a long
  pager the drift also stalls backward navigation: with 13 pages of 300 px the last page
  reports 13, so prev-edge and a backward wheel jump both target page 12, which is the
  clamped offset already shown, and nothing moves (`PrevEdgeStuckAtEnd`).
- **Wheel jump timing.** For wheel deltas 10, 40, 90, 95 on one gesture the jump happens at
  40, the first event that meets every condition; 90 and 95 fall into the cooldown
  (`WheelJumpsAtFirstRisingEdge`). Before the first wheel event the previous delta is
  `undefined`, and the comparison with it is false.
- **Clamp after resize.** A window resize recomputes the page width but does not re-scroll,
  so the offset can lie beyond the new maximum until the next scroll
  (`ResizeCanBreakClamp`). The pager invariant is proved for a fixed layout: from start-up through any pager events and window scrolls (`Boot`, `RunKeepsPagersInv`). The
  document-level load accounting holds across resizes.
- **Loading the first page.** The visibility path loads the first page directly, bypassing
  `loadedPages`, so that page can be loaded twice (`FirstPageLoadedTwice`). "At most once"
  holds per prefetch-record key (`RunPreservesInv`, `LoadsBounded`).
- **Click suppression.** Suppression while panning cancels the click's default action and its
  propagation beyond the pager. Edge clickers and dots handle the click on their own element
  first, so they still navigate. The fullscreen opener checks the `panning` class itself.
- **Images.** An image page has no readiness signal. `loadPage` only removes its spinner, and
  the model records that as Ready.

## Left out

- DOM and CSS plumbing is presentation only and is not modelled. This covers `translate3d`
  transforms, the `animate-scroll`, `pannable`, `panning`, `was-visible` and `loaded` classes,
  edge-clicker and dot element creation, `target=_blank`, and the `dragstart` and wheel
  `preventDefault` handlers. So is the `animated` argument of `scrollTo_`.
- Hammer.js gesture recognition and `getBoundingClientRect` are foreign code. Normalized
  events and integer rectangles are inputs.
- Hammer reports a swipe direction as a bitmask. The model takes one direction value, so
  `(direction & DIRECTION_RIGHT) == 0` becomes "direction is not Right".
- `setTimeout` is not modelled as time. The 0 ms panning clear and the 100 ms wheel cooldown
  are explicit events. A panning-clear event with none scheduled changes nothing. A cooldown
  event just re-enables the wheel, which is a no-op when no cooldown is running.
- `sizeMedia` and `setupMediaSizing` are floating-point scaling from DOM measurements.
- `setupFullscreen` is DOM cloning, key and click handling, and the 10 ms reveal delay. Its only
  decision, ignoring clicks inside a panning pager, is `ClickSuppressed`.
- `setupVideoMedia`'s hover play, pause and seek are direct media-element calls.
- `loadPage` internals are not modelled: the listener registration, `video.load()` and spinner
  removal. They are abstracted to the NotRequested/Requested/Ready state and a call count.
- Pixel values are integers. Fractional widths, deltas and rectangle coordinates from the
  browser are not modelled.
- Every section is taken to hold exactly one pager, and no section starts out marked
  was-visible in the markup.
- A layout with page width of 0 or less (a pager of 96 px or narrower on a wide screen) is
  excluded by `Valid`. `scrollTo_` would then divide by a non-positive width.

=== FILE: arbiter.dfy ===
/**
  The pager's event handlers: the Hammer `pan` / `swipe` / `panend` switch, the wheel
  handler, the edge and dot clicks, the two deferred callbacks (clearing the panning
  state, ending the wheel cooldown) as explicit events, and a video's `canplay`.
*/
module Arbiter {
  import opened Wrappers
  import opened Geometry
  import opened Media
  import opened Carousel

  /** The direction a swipe reports (Hammer reports exactly one of these per swipe). */
  datatype Direction = NoDirection | Left | Right | Up | Down

  /**
    Normalized input. `Pan.deltaX` is the horizontal distance from the start of the
    gesture, as Hammer reports it; `Wheel` carries the wheel event's two deltas.
  */
  datatype Event =
    | Pan(deltaX: int)
    | Swipe(direction: Direction)
    | PanEnd
    | Wheel(deltaX: int, deltaY: int)
    | PrevEdgeClick
    | NextEdgeClick
    | DotClick(index: int)
    | PanClearTimer
    | WheelCooldownExpired
    | VideoCanPlay(page: int)

  /** Smallest wheel movement that counts as a deliberate horizontal flick. */
  const WheelThreshold: int := 30

  function Abs(x: int): int
  {
    if x < 0 then -x else x
  }

  /**
    A click on the pager has its default action and propagation cancelled. Clicks on the
    edge clickers and dots are handled by their own elements first and are not affected.
  */
  predicate ClickSuppressed(p: Pager)
  {
    p.panning
  }

  /** `pan`: ignored after a swipe; otherwise move by the change since the previous pan. */
  function OnPan(lay: Layout, p: Pager, deltaX: int): (r: Pager)
    requires Valid(lay)
    ensures p.swiped ==> r == p
    ensures !p.swiped ==>
      && r.panning && r.lastDeltaX == deltaX
      && r.pageAtPanStart == (if p.pageAtPanStart < 0 then p.currentPage else p.pageAtPanStart)
      && r.scrollX == Clamp(p.scrollX - (deltaX - p.lastDeltaX), MaxScroll(lay, |p.media|))
      && r.swiped == p.swiped && r.pendingPanClears == p.pendingPanClears
      && r.wheelEnabled == p.wheelEnabled && r.lastWheelDeltaX == p.lastWheelDeltaX
  {
    if p.swiped then p
    else
      var start := if p.pageAtPanStart < 0 then p.currentPage else p.pageAtPanStart;
      var q := p.(panning := true, pageAtPanStart := start);
      ScrollTo(lay, q, p.scrollX - (deltaX - p.lastDeltaX), true).(lastDeltaX := deltaX)
  }

  /**
    `swipe`: remember the swipe, then snap one page forward (any direction but right)
    or back from the page the pan started on, and schedule the panning clear.
  */
  function OnSwipe(lay: Layout, p: Pager, direction: Direction): (r: Pager)
    requires Valid(lay) && |p.media| >= 1
    ensures r.swiped && r.lastDeltaX == 0
    ensures r.scrollX == Clamp(PageOffset(lay, p.pageAtPanStart + (if direction == Right then -1 else 1)),
                               MaxScroll(lay, |p.media|))
    ensures r.pendingPanClears == p.pendingPanClears + 1
    ensures r.panning == p.panning && r.pageAtPanStart == p.pageAtPanStart
    ensures r.wheelEnabled == p.wheelEnabled && r.lastWheelDeltaX == p.lastWheelDeltaX
  {
    var step := if direction != Right then 1 else -1;
    var q := p.(swiped := true, lastDeltaX := 0);
    SnapToPage(lay, q, p.pageAtPanStart + step).(pendingPanClears := p.pendingPanClears + 1)
  }

  /** `panend`: without a swipe, snap to the current page and schedule the panning clear. */
  function OnPanEnd(lay: Layout, p: Pager): (r: Pager)
    requires Valid(lay) && |p.media| >= 1
    ensures !r.swiped
    ensures p.swiped ==> r == p.(swiped := false)
    ensures !p.swiped ==>
      && r.scrollX == Clamp(PageOffset(lay, p.currentPage), MaxScroll(lay, |p.media|))
      && r.lastDeltaX == 0
      && r.pendingPanClears == p.pendingPanClears + 1
      && r.panning == p.panning && r.pageAtPanStart == p.pageAtPanStart
      && r.wheelEnabled == p.wheelEnabled && r.lastWheelDeltaX == p.lastWheelDeltaX
  {
    if p.swiped then p.(swiped := false)
    else
      var q := p.(lastDeltaX := 0);
      SnapToPage(lay, q, p.currentPage).(pendingPanClears := p.pendingPanClears + 1, swiped := false)
  }

  /**
    Whether a wheel event jumps a page: the cooldown is over, the movement is mostly
    horizontal and above the threshold, and it grew since the previous wheel event.
    Before any wheel event the previous delta is undefined and the comparison fails.
  */
  function WheelJumps(p: Pager, deltaX: int, deltaY: int): (jumps: bool)
    ensures jumps ==> p.wheelEnabled && Abs(deltaX) > WheelThreshold
    ensures jumps ==> p.lastWheelDeltaX.Some?
    ensures jumps ==> Abs(deltaX) > Abs(deltaY) && Abs(deltaX) > Abs(p.lastWheelDeltaX.value)
  {
    && p.wheelEnabled
    && Abs(deltaX) > Abs(deltaY)
    && Abs(deltaX) > WheelThreshold
    && match p.lastWheelDeltaX
       case None => false
       case Some(last) => Abs(deltaX) > Abs(last)
  }

  /** The wheel handler: maybe jump one page and start the cooldown; always record deltaX. */
  function OnWheel(lay: Layout, p: Pager, deltaX: int, deltaY: int): (r: Pager)
    requires Valid(lay) && |p.media| >= 1
    ensures r.lastWheelDeltaX == Some(deltaX)
    ensures WheelJumps(p, deltaX, deltaY) ==>
      && !r.wheelEnabled
      && r.scrollX == Clamp(PageOffset(lay, p.currentPage + (if deltaX > 0 then 1 else -1)),
                            MaxScroll(lay, |p.media|))
      && r.panning == p.panning && r.swiped == p.swiped && r.lastDeltaX == p.lastDeltaX
      && r.pageAtPanStart == p.pageAtPanStart && r.pendingPanClears == p.pendingPanClears
    ensures !WheelJumps(p, deltaX, deltaY) ==> r == p.(lastWheelDeltaX := Some(deltaX))
  {
    var q :=
      if WheelJumps(p, deltaX, deltaY) then
        SnapToPage(lay, p, p.currentPage + (if deltaX > 0 then 1 else -1)).(wheelEnabled := false)
      else p;
    q.(lastWheelDeltaX := Some(deltaX))
  }

  /** The deferred callback after a swipe or pan end: the gesture is over. */
  function OnPanClearTimer(p: Pager): (r: Pager)
    ensures p.pendingPanClears == 0 ==> r == p
    ensures p.pendingPanClears > 0 ==>
      && !r.panning && r.pageAtPanStart == -1 && r.pendingPanClears == p.pendingPanClears - 1
      && r == p.(panning := r.panning, pageAtPanStart := r.pageAtPanStart, pendingPanClears := r.pendingPanClears)
  {
    if p.pendingPanClears == 0 then p
    else p.(panning := false, pageAtPanStart := -1, pendingPanClears := p.pendingPanClears - 1)
  }

  /** `canplay` on the video of page `page`. */
  function OnCanPlay(p: Pager, page: int): (r: Pager)
    ensures GateGrows(p, r) && r.loadedPages == p.loadedPages
    ensures r == p.(media := r.media)
    ensures forall i :: 0 <= i < |p.media| && i != page ==> r.media[i] == p.media[i]
    ensures 0 <= page < |p.media| ==> |r.media| == |p.media| && r.media[page] == CanPlay(p.media[page])
    ensures !(0 <= page < |p.media|) ==> r == p
  {
    if 0 <= page < |p.media| then p.(media := p.media[page := CanPlay(p.media[page])]) else p
  }

  /** One event delivered to one pager. */
  function Step(lay: Layout, p: Pager, e: Event): (r: Pager)
    requires Valid(lay)
    ensures !Interactive(p) && !e.VideoCanPlay? ==> r == p
    ensures |r.media| == |p.media|
  {
    if e.VideoCanPlay? then OnCanPlay(p, e.page)
    else if !Interactive(p) then p
    else
      match e
      case Pan(dx) => OnPan(lay, p, dx)
      case Swipe(dir) => OnSwipe(lay, p, dir)
      case PanEnd => OnPanEnd(lay, p)
      case Wheel(dx, dy) => OnWheel(lay, p, dx, dy)
      case PrevEdgeClick => SnapToPage(lay, p, p.currentPage - 1)
      case NextEdgeClick => SnapToPage(lay, p, p.currentPage + 1)
      case DotClick(i) => SnapToPage(lay, p, i)
      case PanClearTimer => OnPanClearTimer(p)
      case WheelCooldownExpired => p.(wheelEnabled := true)
  }

  /**
    Events delivered in order. A pager of at most one page has no handlers but the
    videos' `canplay`, so without those events it never changes.
  */
  function Run(lay: Layout, p: Pager, events: seq<Event>): (r: Pager)
    requires Valid(lay)
    ensures |r.media| == |p.media|
    ensures !Interactive(p) && (forall k :: 0 <= k < |events| ==> !events[k].VideoCanPlay?) ==> r == p
    decreases |events|
  {
    if |events| == 0 then p else Run(lay, Step(lay, p, events[0]), events[1..])
  }

  /*
    The handlers one by one: each keeps the invariant and lets the prefetch gate only
    grow, because every offset change goes through `ScrollTo`.
  */
  /** Marking a gesture as panning, from a recorded start page, moves nothing. */
  lemma GestureFlagsKeepInv(lay: Layout, p: Pager, start: int)
    ensures Inv(lay, p) ==> Inv(lay, p.(panning := true, pageAtPanStart := start))
    ensures GateGrows(p, p.(panning := true, pageAtPanStart := start))
  {
    GateGrowsReflexive(p);
    FlagsIrrelevant(lay, p, p, p.(panning := true, pageAtPanStart := start));
  }

  lemma PanPreservesInv(lay: Layout, p: Pager, dx: int)
    requires Valid(lay)
    ensures Inv(lay, p) ==> Inv(lay, OnPan(lay, p, dx))
    ensures GateGrows(p, OnPan(lay, p, dx))
  {
    if !p.swiped {
      var start := if p.pageAtPanStart < 0 then p.currentPage else p.pageAtPanStart;
      var q := p.(panning := true, pageAtPanStart := start);
      var x := p.scrollX - (dx - p.lastDeltaX);
      var s := ScrollTo(lay, q, x, true);
      var r := OnPan(lay, p, dx);
      assert r == s.(lastDeltaX := dx);
      GestureFlagsKeepInv(lay, p, start);
      ScrollToPreservesInv(lay, q, x, true);
      FlagsIrrelevant(lay, q, s, r);
      GateGrowsTransitive(p, q, r);
    }
  }

  lemma SwipePreservesInv(lay: Layout, p: Pager, dir: Direction)
    requires Valid(lay) && |p.media| >= 1
    ensures Inv(lay, p) ==> Inv(lay, OnSwipe(lay, p, dir))
    ensures GateGrows(p, OnSwipe(lay, p, dir))
  {
    var q := p.(swiped := true, lastDeltaX := 0);
    var pos := p.pageAtPanStart + (if dir != Right then 1 else -1);
    var s := SnapToPage(lay, q, pos);
    var r := OnSwipe(lay, p, dir);
    assert r == s.(pendingPanClears := p.pendingPanClears + 1);
    GateGrowsReflexive(p);
    FlagsIrrelevant(lay, p, p, q);
    ScrollToPreservesInv(lay, q, PageOffset(lay, pos), true);
    FlagsIrrelevant(lay, q, s, r);
    GateGrowsTransitive(p, q, r);
  }

  lemma PanEndPreservesInv(lay: Layout, p: Pager)
    requires Valid(lay) && |p.media| >= 1
    ensures Inv(lay, p) ==> Inv(lay, OnPanEnd(lay, p))
    ensures GateGrows(p, OnPanEnd(lay, p))
  {
    if !p.swiped {
      var q := p.(lastDeltaX := 0);
      GateGrowsReflexive(p);
      FlagsIrrelevant(lay, p, p, q);
      ScrollToPreservesInv(lay, q, PageOffset(lay, p.currentPage), true);
      FlagsIrrelevant(lay, q, SnapToPage(lay, q, p.currentPage), OnPanEnd(lay, p));
      GateGrowsTransitive(p, q, OnPanEnd(lay, p));
    }
  }

  lemma WheelPreservesInv(lay: Layout, p: Pager, dx: int, dy: int)
    requires Valid(lay) && |p.media| >= 1
    ensures Inv(lay, p) ==> Inv(lay, OnWheel(lay, p, dx, dy))
    ensures GateGrows(p, OnWheel(lay, p, dx, dy))
  {
    var pos := p.currentPage + (if dx > 0 then 1 else -1);
    var r := OnWheel(lay, p, dx, dy);
    if WheelJumps(p, dx, dy) {
      var s := SnapToPage(lay, p, pos);
      ScrollToPreservesInv(lay, p, PageOffset(lay, pos), true);
      assert r == s.(wheelEnabled := false, lastWheelDeltaX := Some(dx));
      FlagsIrrelevant(lay, p, s, r);
    } else {
      GateGrowsReflexive(p);
      assert r == p.(lastWheelDeltaX := Some(dx));
      FlagsIrrelevant(lay, p, p, r);
    }
  }

  lemma SnapPreservesInv(lay: Layout, p: Pager, position: int)
    requires Valid(lay) && |p.media| >= 1
    ensures Inv(lay, p) ==> Inv(lay, SnapToPage(lay, p, position))
    ensures GateGrows(p, SnapToPage(lay, p, position))
  {
    ScrollToPreservesInv(lay, p, PageOffset(lay, position), true);
  }

  lemma CanPlayPreservesInv(lay: Layout, p: Pager, page: int)
    requires Valid(lay)
    ensures Inv(lay, p) ==> Inv(lay, OnCanPlay(p, page))
    ensures GateGrows(p, OnCanPlay(p, page))
  {
  }

  /** Every event keeps the pager invariant, and the prefetch gate only grows. */
  lemma StepPreservesInv(lay: Layout, p: Pager, e: Event)
    requires Valid(lay)
    ensures Inv(lay, p) ==> Inv(lay, Step(lay, p, e))
    ensures GateGrows(p, Step(lay, p, e))
  {
    var r := Step(lay, p, e);
    if e.VideoCanPlay? {
      CanPlayPreservesInv(lay, p, e.page);
    } else if !Interactive(p) {
      assert r == p;
      GateGrowsReflexive(p);
    } else if e.Pan? {
      PanPreservesInv(lay, p, e.deltaX);
    } else if e.Swipe? {
      SwipePreservesInv(lay, p, e.direction);
    } else if e.PanEnd? {
      PanEndPreservesInv(lay, p);
    } else if e.Wheel? {
      WheelPreservesInv(lay, p, e.deltaX, e.deltaY);
    } else if e.PrevEdgeClick? {
      SnapPreservesInv(lay, p, p.currentPage - 1);
    } else if e.NextEdgeClick? {
      SnapPreservesInv(lay, p, p.currentPage + 1);
    } else if e.DotClick? {
      SnapPreservesInv(lay, p, e.index);
    } else if e.PanClearTimer? {
      GateGrowsReflexive(p);
      FlagsIrrelevant(lay, p, p, r);
    } else {
      assert r == p.(wheelEnabled := true);
      GateGrowsReflexive(p);
      FlagsIrrelevant(lay, p, p, r);
    }
  }

  /**
    Any sequence of events keeps the pager invariant, and along it the prefetch gate
    only grows and loads each index of `loadedPages` exactly once.
  */
  lemma {:induction false} RunPreservesInv(lay: Layout, p: Pager, events: seq<Event>)
    requires Valid(lay)
    ensures Inv(lay, p) ==> Inv(lay, Run(lay, p, events))
    ensures GateGrows(p, Run(lay, p, events))
    decreases |events|
  {
    if |events| > 0 {
      var q := Step(lay, p, events[0]);
      StepPreservesInv(lay, p, events[0]);
      RunPreservesInv(lay, q, events[1..]);
      GateGrowsTransitive(p, q, Run(lay, q, events[1..]));
    }
  }

  /** A swipe and the pan end of the same gesture never both snap: the pan end only resets the flag. */
  lemma SwipeExcludesPanEnd(lay: Layout, p: Pager, dir: Direction)
    requires Valid(lay) && Interactive(p)
    ensures Step(lay, Step(lay, p, Swipe(dir)), PanEnd) == Step(lay, p, Swipe(dir)).(swiped := false)
  {
  }

  /** Once a swipe resolved the gesture, further pans of it are ignored. */
  lemma PansIgnoredAfterSwipe(lay: Layout, p: Pager, dir: Direction, dx: int)
    requires Valid(lay) && Interactive(p)
    ensures Step(lay, Step(lay, p, Swipe(dir)), Pan(dx)) == Step(lay, p, Swipe(dir))
  {
  }

  /** A pan of a gesture not yet swiped turns click suppression on. */
  lemma PanSuppressesClicks(lay: Layout, p: Pager, dx: int)
    requires Valid(lay) && Interactive(p) && !p.swiped
    ensures ClickSuppressed(Step(lay, p, Pan(dx)))
  {
  }

  /** Only the deferred clear turns click suppression off again. */
  lemma PanningPersists(lay: Layout, p: Pager, e: Event)
    requires Valid(lay) && ClickSuppressed(p) && !e.PanClearTimer?
    ensures ClickSuppressed(Step(lay, p, e))
  {
  }

  /** The wheel stays disabled through every event but the end of its cooldown. */
  lemma WheelDisabledPersists(lay: Layout, p: Pager, e: Event)
    requires Valid(lay) && !p.wheelEnabled && !e.WheelCooldownExpired?
    ensures !Step(lay, p, e).wheelEnabled
  {
  }

  /** Pan events with their cumulative deltas. */
  function Pans(ds: seq<int>): (es: seq<Event>)
    ensures |es| == |ds|
    ensures forall k :: 0 <= k < |ds| ==> es[k] == Pan(ds[k])
  {
    seq(|ds|, k requires 0 <= k < |ds| => Pan(ds[k]))
  }

  /**
    Pan deltas are applied relative to the previous pan, so as long as the offset never
    reaches a clamp bound a run of pans telescopes: the offset moves by the change in the
    cumulative delta, and the page the gesture started on is recorded once.
  */
  lemma {:induction false} PansTelescope(lay: Layout, p: Pager, ds: seq<int>)
    requires Inv(lay, p) && Interactive(p) && !p.swiped && |ds| > 0
    requires forall k :: 0 <= k < |ds| ==>
               0 <= p.scrollX + p.lastDeltaX - ds[k] <= MaxScroll(lay, |p.media|)
    ensures Run(lay, p, Pans(ds)).scrollX == p.scrollX + p.lastDeltaX - ds[|ds| - 1]
    ensures Run(lay, p, Pans(ds)).lastDeltaX == ds[|ds| - 1]
    ensures Run(lay, p, Pans(ds)).panning && !Run(lay, p, Pans(ds)).swiped
    ensures Run(lay, p, Pans(ds)).pageAtPanStart ==
              (if p.pageAtPanStart < 0 then p.currentPage else p.pageAtPanStart)
    decreases |ds|
  {
    var q := Step(lay, p, Pan(ds[0]));
    StepPreservesInv(lay, p, Pan(ds[0]));
    assert Pans(ds)[1..] == Pans(ds[1..]);
    if |ds| > 1 {
      PansTelescope(lay, q, ds[1..]);
    }
  }

  /** During the cooldown a wheel event only records its delta. */
  lemma WheelCooldownIgnores(lay: Layout, p: Pager, dx: int, dy: int)
    requires Valid(lay) && Interactive(p) && !p.wheelEnabled
    ensures Step(lay, p, Wheel(dx, dy)) == p.(lastWheelDeltaX := Some(dx))
  {
  }

  /** A wheel delta no larger than the previous one is no rising edge: it only records itself. */
  lemma NoJumpWithoutRise(lay: Layout, p: Pager, dx: int, dy: int, dx2: int, dy2: int)
    requires Valid(lay) && Interactive(p) && Abs(dx2) <= Abs(dx)
    ensures Step(lay, Step(lay, p, Wheel(dx, dy)), Wheel(dx2, dy2))
              == Step(lay, p, Wheel(dx, dy)).(lastWheelDeltaX := Some(dx2))
  {
  }

  /** A mostly vertical wheel movement never jumps: it only records its horizontal delta. */
  lemma NoJumpWhenVertical(lay: Layout, p: Pager, dx: int, dy: int)
    requires Valid(lay) && Interactive(p) && Abs(dx) <= Abs(dy)
    ensures Step(lay, p, Wheel(dx, dy)) == p.(lastWheelDeltaX := Some(dx))
  {
  }

  /** A wheel jump starts a cooldown that the next wheel event cannot escape. */
  lemma WheelJumpOnlyOnce(lay: Layout, p: Pager, dx: int, dy: int, dx': int, dy': int)
    requires Valid(lay) && Interactive(p) && WheelJumps(p, dx, dy)
    ensures !Step(lay, p, Wheel(dx, dy)).wheelEnabled
    ensures !WheelJumps(Step(lay, p, Wheel(dx, dy)), dx', dy')
  {
  }

  /** Edge clicks saturate: back from the first page stays at the start, forward from the last stays at the end. */
  lemma EdgeClicksSaturate(lay: Layout, p: Pager)
    requires Valid(lay) && Interactive(p)
    ensures p.currentPage <= 0 ==> Step(lay, p, PrevEdgeClick).scrollX == 0
    ensures p.currentPage >= |p.media| - 1 ==>
              Step(lay, p, NextEdgeClick).scrollX == MaxScroll(lay, |p.media|)
  {
  }

  /** A dot click aligns the pager with that page, and repeating it changes nothing. */
  lemma DotClickAligns(lay: Layout, p: Pager, i: int)
    requires Valid(lay) && Interactive(p) && 0 <= i < |p.media|
    ensures Step(lay, p, DotClick(i)).scrollX == PageOffset(lay, i)
    ensures Step(lay, Step(lay, p, DotClick(i)), DotClick(i)) == Step(lay, p, DotClick(i))
  {
    SnapIdempotent(lay, p, i);
  }

  /** Delivering two batches of events one after the other is delivering their concatenation. */
  lemma {:induction false} RunConcat(lay: Layout, p: Pager, xs: seq<Event>, ys: seq<Event>)
    requires Valid(lay)
    ensures Run(lay, p, xs + ys) == Run(lay, Run(lay, p, xs), ys)
    decreases |xs|
  {
    if |xs| == 0 {
      assert xs + ys == ys;
    } else {
      assert (xs + ys)[0] == xs[0];
      assert (xs + ys)[1..] == xs[1..] + ys;
      RunConcat(lay, Step(lay, p, xs[0]), xs[1..], ys);
    }
  }
}

=== FILE: carousel.dfy ===
/**
  One pager built by `buildPagers`: its state, the prefetch gate `loadPageByIndex_`,
  the scroll-position owner `scrollTo_`, `snapToPage_`, and the state right after the
  pager is built. The layout is shared by all pagers and passed in.
*/
module Carousel {
  import opened Wrappers
  import opened Geometry
  import opened Media

  /**
    The variables the pager's handlers close over. `dots` holds the "active" flag of
    each page dot (empty when the pager has no dots); `pendingPanClears` counts the
    deferred "stop panning" callbacks scheduled but not yet run.
  */
  datatype Pager = Pager(
    media: seq<PageMedia>,
    scrollX: int,
    currentPage: int,
    panning: bool,
    loadedPages: set<int>,
    dots: seq<bool>,
    lastDeltaX: int,
    pageAtPanStart: int,
    swiped: bool,
    pendingPanClears: nat,
    lastWheelDeltaX: Option<int>,
    wheelEnabled: bool
  )

  /** Pagers with at most one page get no gesture, wheel, edge or dot handling. */
  predicate Interactive(p: Pager)
  {
    |p.media| > 1
  }

  /** `{page}` when it is a valid page index, otherwise nothing. */
  function InRange(page: int, numPages: int): set<int>
  {
    if 0 <= page < numPages then {page} else {}
  }

  /** The prefetch window around page `c`: its neighbours and itself, within range. */
  function Window(c: int, numPages: int): set<int>
  {
    InRange(c - 1, numPages) + InRange(c, numPages) + InRange(c + 1, numPages)
  }

  lemma WindowMembers(c: int, numPages: int, i: int)
    ensures i in Window(c, numPages) <==> c - 1 <= i <= c + 1 && 0 <= i < numPages
  {
  }

  /**
    `r` is `p` after `loadPage` ran once on every page in `added` and on no other page,
    and exactly those indices joined `loadedPages`.
  */
  ghost predicate Prefetched(p: Pager, r: Pager, added: set<int>)
  {
    && |r.media| == |p.media|
    && added !! p.loadedPages
    && (forall i :: i in added ==> 0 <= i < |p.media|)
    && r.loadedPages == p.loadedPages + added
    && (forall i :: 0 <= i < |p.media| ==>
          r.media[i] == (if i in added then LoadPage(p.media[i]) else p.media[i]))
  }

  lemma PrefetchedCompose(p: Pager, q: Pager, r: Pager, a: set<int>, b: set<int>)
    requires Prefetched(p, q, a) && Prefetched(q, r, b)
    ensures Prefetched(p, r, a + b)
  {
  }

  /**
    `loadPageByIndex_`: an index outside the pager or already requested is ignored;
    otherwise it is recorded and its page is loaded. Nothing else changes.
  */
  function LoadPageByIndex(p: Pager, page: int): (r: Pager)
    ensures Prefetched(p, r, InRange(page, |p.media|) - p.loadedPages)
    ensures r == p.(loadedPages := r.loadedPages, media := r.media)
  {
    if page < 0 || page >= |p.media| || page in p.loadedPages then p
    else p.(loadedPages := p.loadedPages + {page}, media := p.media[page := LoadPage(p.media[page])])
  }

  /** The three `loadPageByIndex_` calls `scrollTo_` makes around a new current page. */
  function PrefetchAround(p: Pager, c: int): (r: Pager)
    ensures Prefetched(p, r, Window(c, |p.media|) - p.loadedPages)
    ensures r == p.(loadedPages := r.loadedPages, media := r.media)
  {
    var n := |p.media|;
    var p1 := LoadPageByIndex(p, c - 1);
    var p2 := LoadPageByIndex(p1, c);
    var p3 := LoadPageByIndex(p2, c + 1);
    PrefetchedCompose(p, p1, p2, InRange(c - 1, n) - p.loadedPages, InRange(c, n) - p1.loadedPages);
    PrefetchedCompose(p, p2, p3, InRange(c - 1, n) - p.loadedPages + (InRange(c, n) - p1.loadedPages),
      InRange(c + 1, n) - p2.loadedPages);
    assert Window(c, n) - p.loadedPages
      == InRange(c - 1, n) - p.loadedPages + (InRange(c, n) - p1.loadedPages) + (InRange(c + 1, n) - p2.loadedPages);
    p3
  }

  /** The dots after a page change: exactly the dot of page `c` is active. */
  function ActiveDots(count: nat, c: int): (d: seq<bool>)
    ensures |d| == count
    ensures 0 <= c < count ==> d[c]
    ensures forall i :: 0 <= i < count && i != c ==> !d[i]
    ensures !(0 <= c < count) ==> forall i :: 0 <= i < count ==> !d[i]
  {
    seq(count, i => i == c)
  }

  /** Dot `i` is active exactly when `i` is `c`. */
  lemma ActiveDotsExact(count: nat, c: int)
    ensures forall i :: 0 <= i < count ==> ActiveDots(count, c)[i] == (i == c)
  {
  }

  /** Whatever `c` is, at most one dot is active. */
  lemma AtMostOneDot(count: nat, c: int)
    ensures forall i, j :: 0 <= i < j < count ==> !(ActiveDots(count, c)[i] && ActiveDots(count, c)[j])
  {
  }

  /**
    `scrollTo_(x, animated, loadPages)`: the offset is clamped to the pager, the current
    page becomes the rounded quotient of the offset by the page width, and only when that
    index changed are the neighbours prefetched (if `loadPages`) and the dots updated.
    The `animated` flag only toggles a CSS transition and is not modelled.
  */
  function ScrollTo(lay: Layout, p: Pager, x: int, loadPages: bool): (r: Pager)
    requires Valid(lay)
    ensures r.scrollX == Clamp(x, MaxScroll(lay, |p.media|))
    ensures r.currentPage == RoundDiv(r.scrollX, lay.pageWidth)
    ensures r.currentPage == p.currentPage ==> Prefetched(p, r, {}) && r.dots == p.dots
    ensures r.currentPage != p.currentPage ==>
      && Prefetched(p, r, if loadPages then Window(r.currentPage, |p.media|) - p.loadedPages else {})
      && |r.dots| == |p.dots|
      && forall i :: 0 <= i < |r.dots| ==> r.dots[i] == (i == r.currentPage)
    ensures r == p.(scrollX := r.scrollX, currentPage := r.currentPage,
                    loadedPages := r.loadedPages, media := r.media, dots := r.dots)
  {
    var sx := Clamp(x, MaxScroll(lay, |p.media|));
    var c := RoundDiv(sx, lay.pageWidth);
    if c == p.currentPage then p.(scrollX := sx) else EnterPage(p, sx, c, loadPages)
  }

  /**
    The part of `scrollTo_` run when the rounded page index changed: record the new
    offset and page, prefetch around it when asked, and light only its dot.
  */
  function EnterPage(p: Pager, sx: int, c: int, loadPages: bool): (r: Pager)
    ensures r.scrollX == sx && r.currentPage == c
    ensures Prefetched(p, r, if loadPages then Window(c, |p.media|) - p.loadedPages else {})
    ensures |r.dots| == |p.dots| && forall i :: 0 <= i < |r.dots| ==> r.dots[i] == (i == c)
    ensures r == p.(scrollX := sx, currentPage := c,
                    loadedPages := r.loadedPages, media := r.media, dots := r.dots)
  {
    var q := p.(scrollX := sx, currentPage := c);
    var q' := if loadPages then PrefetchAround(q, c) else q;
    ActiveDotsExact(|p.dots|, c);
    q'.(dots := ActiveDots(|p.dots|, c))
  }

  /** `snapToPage_`: scroll, with loads, to the aligned offset of `position`. */
  function SnapToPage(lay: Layout, p: Pager, position: int): (r: Pager)
    requires Valid(lay)
    requires |p.media| >= 1
    ensures position <= 0 ==> r.scrollX == 0
    ensures position >= |p.media| - 1 ==> r.scrollX == MaxScroll(lay, |p.media|)
    ensures 0 <= position < |p.media| ==> r.scrollX == PageOffset(lay, position)
    ensures 0 <= r.scrollX <= MaxScroll(lay, |p.media|)
  {
    SnapBounds(lay, |p.media|, position);
    ScrollTo(lay, p, PageOffset(lay, position), true)
  }

  /** Where the aligned offset of `position` sits relative to the clamp bounds. */
  lemma SnapBounds(lay: Layout, n: int, position: int)
    requires Valid(lay) && n >= 1
    ensures 0 <= MaxScroll(lay, n)
    ensures position <= 0 ==> PageOffset(lay, position) <= 0
    ensures position >= n - 1 ==> PageOffset(lay, position) >= MaxScroll(lay, n)
    ensures 0 <= position < n ==> 0 <= PageOffset(lay, position) <= MaxScroll(lay, n)
  {
    OffsetMonotone(lay, 0, n - 1);
    if position <= 0 {
      OffsetMonotone(lay, position, 0);
    }
    if position >= n - 1 {
      OffsetMonotone(lay, n - 1, position);
    }
    if 0 <= position < n {
      OffsetMonotone(lay, position, n - 1);
      OffsetMonotone(lay, 0, position);
    }
  }

  /**
    The pager's variables before the closing `scrollTo_(0, false, false)`: every page
    unloaded and unrequested, no page current and no dot active (dots exist only on a
    pager of more than one page), no gesture in progress, and a wheel that is enabled but
    has no previous delta to compare with.
  */
  function Fresh(kinds: seq<Kind>): (r: Pager)
    ensures |r.media| == |kinds| && forall i :: 0 <= i < |kinds| ==> r.media[i] == Unloaded(kinds[i])
    ensures r.loadedPages == {} && r.scrollX == 0 && r.currentPage < 0
    ensures |r.dots| == (if |kinds| > 1 then |kinds| else 0)
    ensures forall i :: 0 <= i < |r.dots| ==> !r.dots[i]
    ensures !r.panning && !r.swiped && r.pageAtPanStart < 0 && r.pendingPanClears == 0 && r.lastDeltaX == 0
    ensures r.wheelEnabled && r.lastWheelDeltaX.None?
  {
    Pager(
      media := seq(|kinds|, i requires 0 <= i < |kinds| => Unloaded(kinds[i])),
      scrollX := 0,
      currentPage := -1,
      panning := false,
      loadedPages := {},
      dots := if |kinds| > 1 then seq(|kinds|, i => false) else [],
      lastDeltaX := 0,
      pageAtPanStart := -1,
      swiped := false,
      pendingPanClears := 0,
      lastWheelDeltaX := None,
      wheelEnabled := true
    )
  }

  /**
    The state the pager holds between events: the offset within the pager, the current
    page derived from it, the dots showing it, requested indices within range and every
    page's media in a reachable state.
  */
  ghost predicate Inv(lay: Layout, p: Pager)
  {
    && Valid(lay)
    && (forall i :: i in p.loadedPages ==> 0 <= i < |p.media|)
    && (forall i :: 0 <= i < |p.media| ==> WellFormed(p.media[i]))
    && (Interactive(p) ==>
          && 0 <= p.scrollX <= MaxScroll(lay, |p.media|)
          && p.currentPage == RoundDiv(p.scrollX, lay.pageWidth)
          && |p.dots| == |p.media|
          && forall i :: 0 <= i < |p.dots| ==> p.dots[i] == (i == p.currentPage))
  }

  /**
    A pager as `buildPagers` leaves it. With more than one page the closing
    `scrollTo_(0, false, false)` moves the current page from -1 to 0 without loading
    anything; smaller pagers are left untouched.
  */
  function Build(lay: Layout, kinds: seq<Kind>): (r: Pager)
    requires Valid(lay)
    ensures Inv(lay, r)
    ensures |r.media| == |kinds|
    ensures forall i :: 0 <= i < |kinds| ==> r.media[i] == Unloaded(kinds[i])
    ensures r.loadedPages == {}
    ensures r.scrollX == 0 && !r.panning && !r.swiped && r.wheelEnabled
    ensures r.lastWheelDeltaX == None && r.pageAtPanStart == -1 && r.pendingPanClears == 0
    ensures r.currentPage == (if |kinds| > 1 then 0 else -1)
  {
    var f := Fresh(kinds);
    if |kinds| <= 1 then f
    else
      var r := ScrollTo(lay, f, 0, false);
      OffsetMonotone(lay, 0, |kinds| - 1);
      r
  }

  /**
    From `p` to `r` the pager kept its pages and their kinds, `loadedPages` only grew, no
    page moved back in its lifecycle, and `loadPage` ran exactly once on each index that
    joined `loadedPages` and on no other page.
  */
  ghost predicate GateGrows(p: Pager, r: Pager)
  {
    && |r.media| == |p.media|
    && p.loadedPages <= r.loadedPages
    && (forall i :: i in r.loadedPages && i !in p.loadedPages ==> 0 <= i < |p.media|)
    && forall i :: 0 <= i < |p.media| ==>
         && r.media[i].kind == p.media[i].kind
         && Rank(p.media[i].state) <= Rank(r.media[i].state)
         && (WellFormed(p.media[i]) ==> WellFormed(r.media[i]))
         && r.media[i].loads == p.media[i].loads + (if i in r.loadedPages - p.loadedPages then 1 else 0)
  }

  lemma PrefetchedGrows(p: Pager, r: Pager, added: set<int>)
    requires Prefetched(p, r, added)
    ensures GateGrows(p, r)
  {
  }

  lemma GateGrowsReflexive(p: Pager)
    ensures GateGrows(p, p)
  {
  }

  lemma GateGrowsTransitive(p: Pager, q: Pager, r: Pager)
    requires GateGrows(p, q) && GateGrows(q, r)
    ensures GateGrows(p, r)
  {
    forall i | 0 <= i < |p.media|
      ensures r.media[i].loads == p.media[i].loads + (if i in r.loadedPages - p.loadedPages then 1 else 0)
    {
    }
  }

  /** Every scroll keeps the pager invariant. */
  lemma ScrollToPreservesInv(lay: Layout, p: Pager, x: int, loadPages: bool)
    requires Valid(lay)
    ensures Inv(lay, p) ==> Inv(lay, ScrollTo(lay, p, x, loadPages))
    ensures GateGrows(p, ScrollTo(lay, p, x, loadPages))
  {
    var r := ScrollTo(lay, p, x, loadPages);
    if Interactive(p) {
      OffsetMonotone(lay, 0, |p.media| - 1);
    }
    if r.currentPage == p.currentPage {
      PrefetchedGrows(p, r, {});
    } else {
      PrefetchedGrows(p, r, if loadPages then Window(r.currentPage, |p.media|) - p.loadedPages else {});
    }
  }

  /** The invariant and the gate growth do not depend on the gesture and wheel flags. */
  lemma FlagsIrrelevant(lay: Layout, p: Pager, r: Pager, r': Pager)
    requires GateGrows(p, r)
    requires r'.media == r.media && r'.scrollX == r.scrollX && r'.currentPage == r.currentPage
    requires r'.loadedPages == r.loadedPages && r'.dots == r.dots
    ensures Inv(lay, r) ==> Inv(lay, r')
    ensures GateGrows(p, r')
  {
  }

  /** Prefetching only ever adds indices and never loads a page twice. */
  lemma PrefetchIdempotent(p: Pager, page: int)
    ensures LoadPageByIndex(LoadPageByIndex(p, page), page) == LoadPageByIndex(p, page)
  {
  }

  /** Repeating a scroll to the same offset changes nothing. */
  lemma ScrollToIdempotent(lay: Layout, p: Pager, x: int, loadPages: bool)
    requires Valid(lay)
    ensures ScrollTo(lay, ScrollTo(lay, p, x, loadPages), x, loadPages) == ScrollTo(lay, p, x, loadPages)
  {
  }

  /** Navigating to the same page twice in a row is the same as navigating once. */
  lemma SnapIdempotent(lay: Layout, p: Pager, position: int)
    requires Valid(lay) && |p.media| >= 1
    ensures SnapToPage(lay, SnapToPage(lay, p, position), position) == SnapToPage(lay, p, position)
  {
    ScrollToIdempotent(lay, p, PageOffset(lay, position), true);
  }
}

=== FILE: geometry.dfy ===
/**
  Pixel geometry of the pagers: the widths `relayout_` computes and the two pieces of
  integer arithmetic `scrollTo_` relies on (clamping the offset, rounding it to a page).
*/
module Geometry {

  /** Fixed gap between adjacent pages, in pixels. */
  const PageSpacing: int := 16
  /** Peek of the neighbouring pages on a narrow screen, in pixels. */
  const NarrowPeek: int := 16
  /** Peek of the neighbouring pages on a wide screen, in pixels. */
  const WidePeek: int := 32
  /** Screens narrower than this get the narrow peek. */
  const NarrowScreenWidth: int := 480

  /** The widths shared by every pager on the document. */
  datatype Layout = Layout(pagePeek: int, pageSpacing: int, pageWidth: int)

  /** A layout the pager arithmetic can work with: pages have positive width. */
  predicate Valid(lay: Layout)
  {
    lay.pageWidth > 0 && lay.pageSpacing >= 0
  }

  /**
    `relayout_`: the peek depends on the screen width, the spacing is fixed, and a page
    takes whatever the pager leaves after a spacing and a peek on either side.
  */
  function Relayout(screenWidth: int, pagerWidth: int): (lay: Layout)
    ensures lay.pageSpacing == PageSpacing
    ensures lay.pagePeek == NarrowPeek <==> screenWidth < NarrowScreenWidth
    ensures lay.pagePeek == NarrowPeek || lay.pagePeek == WidePeek
    ensures lay.pagePeek + lay.pageSpacing + lay.pageWidth + lay.pageSpacing + lay.pagePeek == pagerWidth
    ensures Valid(lay) <==> pagerWidth > 2 * (lay.pagePeek + PageSpacing)
  {
    var peek := if screenWidth < NarrowScreenWidth then NarrowPeek else WidePeek;
    Layout(peek, PageSpacing, pagerWidth - (peek + PageSpacing) * 2)
  }

  /** The scroll offset at which page `index` is aligned: the argument `snapToPage_` scrolls to. */
  function PageOffset(lay: Layout, index: int): int
  {
    index * (lay.pageWidth + lay.pageSpacing)
  }

  /** The largest offset `scrollTo_` allows: the last page aligned. */
  function MaxScroll(lay: Layout, numPages: int): int
  {
    PageOffset(lay, numPages - 1)
  }

  /** `Math.max(0, Math.min(hi, x))`. */
  function Clamp(x: int, hi: int): (r: int)
    ensures 0 <= r
    ensures 0 <= hi ==> r <= hi
    ensures 0 <= x <= hi ==> r == x
    ensures x < 0 || hi < 0 ==> r == 0
    ensures 0 <= hi < x ==> r == hi
  {
    var m := if hi < x then hi else x;
    if m < 0 then 0 else m
  }

  /** `Math.round(x / w)` for a non-negative offset: the nearest integer, halves rounding up. */
  function RoundDiv(x: int, w: int): (r: int)
    requires 0 <= x && 0 < w
    ensures 0 <= r
    ensures 2 * w * r <= 2 * x + w < 2 * w * (r + 1)
  {
    var r := (2 * x + w) / (2 * w);
    assert 2 * x + w == (2 * w) * r + (2 * x + w) % (2 * w);
    r
  }

  /** The rounding contract pins down a single integer. */
  lemma RoundDivUnique(x: int, w: int, k: int)
    requires 0 <= x && 0 < w
    requires 2 * w * k <= 2 * x + w < 2 * w * (k + 1)
    ensures k == RoundDiv(x, w)
  {
    var r := RoundDiv(x, w);
    if k < r {
      MulMonotone(2 * w, k + 1, r);
      assert false;
    } else if r < k {
      MulMonotone(2 * w, r + 1, k);
      assert false;
    }
  }

  lemma MulMonotone(c: int, a: int, b: int)
    requires 0 < c && a <= b
    ensures c * a <= c * b
  {
    assert c * b - c * a == c * (b - a);
  }

  /** Page offsets grow with the page index. */
  lemma OffsetMonotone(lay: Layout, i: int, j: int)
    requires Valid(lay) && i <= j
    ensures PageOffset(lay, i) <= PageOffset(lay, j)
  {
    MulMonotone(lay.pageWidth + lay.pageSpacing, i, j);
  }
}

=== FILE: media.dfy ===
/**
  The per-page media lifecycle driven by `loadPage` and by a video's `canplay` event.
  A page holds either an image (or no video at all) or a video.
*/
module Media {

  datatype Kind = Image | Video

  /** NotRequested -> Requested -> Ready; Ready is terminal. */
  datatype LoadState = NotRequested | Requested | Ready

  /**
    One page's media. `loads` counts how many times `loadPage` has been applied to the
    page, so that "requested at most once" can be stated about the callers.
  */
  datatype PageMedia = PageMedia(kind: Kind, state: LoadState, loads: nat)

  /** Position of a state along the lifecycle. */
  function Rank(s: LoadState): nat
  {
    match s
    case NotRequested => 0
    case Requested => 1
    case Ready => 2
  }

  /** A page as the document is first built: nothing requested yet. */
  function Unloaded(kind: Kind): PageMedia
  {
    PageMedia(kind, NotRequested, 0)
  }

  /**
    States a page can actually be in: an image is never left waiting (it has no
    readiness signal of its own), and a page is NotRequested exactly until the first load.
  */
  predicate WellFormed(m: PageMedia)
  {
    && (m.kind == Image ==> m.state != Requested)
    && (m.state == NotRequested <==> m.loads == 0)
  }

  /**
    `loadPage`: a video that is not yet loaded starts decoding and waits for `canplay`;
    otherwise (an image, or a video already loaded) the spinner is removed and the page
    shows its media.
  */
  function LoadPage(m: PageMedia): (r: PageMedia)
    ensures r.kind == m.kind && r.loads == m.loads + 1
    ensures Rank(m.state) <= Rank(r.state)
    ensures r.state != NotRequested
    ensures r.state == Ready <==> (m.kind == Image || m.state == Ready)
    ensures WellFormed(m) ==> WellFormed(r)
  {
    if m.kind == Video && m.state != Ready then
      m.(state := Requested, loads := m.loads + 1)
    else
      assert m.kind == Image || m.state == Ready;
      m.(state := Ready, loads := m.loads + 1)
  }

  /**
    A video's `canplay` event. The listener exists only once `loadPage` ran, so only a
    requested video becomes ready; anything else is left as it is.
  */
  function CanPlay(m: PageMedia): (r: PageMedia)
    ensures r.kind == m.kind && r.loads == m.loads
    ensures Rank(m.state) <= Rank(r.state)
    ensures r.state == Ready <==> (m.state == Ready || (m.kind == Video && m.state == Requested))
    ensures r.state != Ready ==> r == m
    ensures WellFormed(m) ==> WellFormed(r)
  {
    if m.kind == Video && m.state == Requested then m.(state := Ready) else m
  }
}

=== FILE: scenarios.dfy ===
/**
  Concrete traces: the behaviours the carousel is meant to show, and the places where
  the code behaves differently from what one would assume.
*/
module Scenarios {
  import opened Wrappers
  import opened Geometry
  import opened Media
  import opened Carousel
  import opened Arbiter
  import opened Visibility
  import opened Showcase

  /** A wide screen with a 396 px pager: 300 px pages, 16 px spacing, 32 px peek. */
  function Wide(): Layout
  {
    Relayout(1024, 396)
  }

  function Images(n: nat): seq<Kind>
  {
    seq(n, i => Image)
  }

  /** Navigating to page 2 of 5 aligns it at 632 px and requests exactly pages 1 to 3. */
  lemma SnapRequestsNeighbours()
    ensures Wide() == Layout(32, 16, 300)
    ensures var p := Step(Wide(), Build(Wide(), Images(5)), DotClick(2));
      && p.scrollX == 632 && p.currentPage == 2
      && p.loadedPages == {1, 2, 3}
      && p.media[0].state == NotRequested && p.media[4].state == NotRequested
      && p.media[2].state == Ready
  {
    var lay := Wide();
    var p0 := Build(lay, Images(5));
    var p := Step(lay, p0, DotClick(2));
    RoundDivUnique(632, 300, 2);
    InteriorWindow(2, 5);
  }

  /** Away from both ends the prefetch window is the page and its two neighbours. */
  lemma InteriorWindow(c: int, n: int)
    requires 1 <= c && c + 1 < n
    ensures Window(c, n) == {c - 1, c, c + 1}
  {
    forall i ensures i in Window(c, n) <==> i in {c - 1, c, c + 1} {
      WindowMembers(c, n, i);
    }
  }

  /** Moving 0 -> 1 -> 0 requests each page once; returning requests nothing new. */
  lemma RevisitRequestsOnce()
    ensures var p := Arbiter.Run(Wide(), Build(Wide(), Images(5)), [DotClick(1), DotClick(0)]);
      && p.currentPage == 0 && p.loadedPages == {0, 1, 2}
      && p.media[0].loads == 1 && p.media[1].loads == 1 && p.media[2].loads == 1
      && p.media[3].loads == 0
  {
    var p1 := OnSecondPage();
    BackToFirstPage(p1);
    var es := [DotClick(1), DotClick(0)];
    assert es[1..] == [DotClick(0)];
    assert Arbiter.Run(Wide(), Build(Wide(), Images(5)), es) == Arbiter.Run(Wide(), p1, [DotClick(0)]);
  }

  /** The first visit to page 1 requests pages 0 to 2, once each. */
  lemma SecondPageRequested(p1: Pager)
    requires p1 == Step(Wide(), Build(Wide(), Images(5)), DotClick(1))
    requires p1.currentPage == 1 && |p1.media| == 5
    ensures p1.loadedPages == {0, 1, 2}
    ensures p1.media[0].loads == 1 && p1.media[1].loads == 1 && p1.media[2].loads == 1
    ensures p1.media[3].loads == 0
  {
    var lay := Wide();
    var p0 := Build(lay, Images(5));
    assert Window(1, 5) == {0, 1, 2} by {
      forall i ensures i in Window(1, 5) <==> i in {0, 1, 2} {
        WindowMembers(1, 5, i);
      }
    }
    assert Prefetched(p0, p1, {0, 1, 2});
  }

  lemma BackToFirstPage(p1: Pager)
    requires p1 == Step(Wide(), Build(Wide(), Images(5)), DotClick(1))
    requires p1.currentPage == 1 && |p1.media| == 5
    ensures var p := Arbiter.Run(Wide(), p1, [DotClick(0)]);
      && p.currentPage == 0 && p.loadedPages == {0, 1, 2}
      && p.media[0].loads == 1 && p.media[1].loads == 1 && p.media[2].loads == 1
      && p.media[3].loads == 0
  {
    var lay := Wide();
    SecondPageRequested(p1);
    var p2 := Step(lay, p1, DotClick(0));
    assert p2.scrollX == 0 && p2.currentPage == 0;
    assert Window(0, 5) - p1.loadedPages == {} by {
      forall i ensures i in Window(0, 5) ==> i in p1.loadedPages {
        WindowMembers(0, 5, i);
      }
    }
    assert Prefetched(p1, p2, {});
    assert Arbiter.Run(lay, p1, [DotClick(0)]) == Arbiter.Run(lay, p2, []);
  }

  /** Pager 1 of 5 aligned, with no gesture in progress. */
  lemma OnSecondPage() returns (p1: Pager)
    ensures p1 == Step(Wide(), Build(Wide(), Images(5)), DotClick(1))
    ensures Inv(Wide(), p1) && |p1.media| == 5
    ensures p1.currentPage == 1 && p1.scrollX == 316
    ensures !p1.swiped && p1.lastDeltaX == 0 && p1.pageAtPanStart == -1
  {
    var lay := Wide();
    var p0 := Build(lay, Images(5));
    p1 := Step(lay, p0, DotClick(1));
    StepPreservesInv(lay, p0, DotClick(1));
    RoundDivUnique(316, 300, 1);
  }

  /** The gesture of `SwipeResolvesGesture` from any state with those facts. */
  /** The two pans of that gesture: 40 px to the right of page 1, still reported as page 1. */
  lemma PansFromSecondPage(p1: Pager) returns (b: Pager)
    requires Inv(Wide(), p1) && |p1.media| == 5
    requires p1.currentPage == 1 && p1.scrollX == 316
    requires !p1.swiped && p1.lastDeltaX == 0 && p1.pageAtPanStart == -1
    ensures b == Arbiter.Run(Wide(), p1, Pans([-10, -40]))
    ensures Inv(Wide(), b) && |b.media| == 5
    ensures b.scrollX == 356 && b.currentPage == 1 && b.pageAtPanStart == 1 && b.panning && !b.swiped
  {
    var lay := Wide();
    var ds := [-10, -40];
    PansTelescope(lay, p1, ds);
    b := Arbiter.Run(lay, p1, Pans(ds));
    RunPreservesInv(lay, p1, Pans(ds));
    RoundDivUnique(356, 300, 1);
  }

  lemma GestureFromSecondPage(p1: Pager)
    requires Inv(Wide(), p1) && |p1.media| == 5
    requires p1.currentPage == 1 && p1.scrollX == 316
    requires !p1.swiped && p1.lastDeltaX == 0 && p1.pageAtPanStart == -1
    ensures var q := Arbiter.Run(Wide(), p1, [Pan(-10), Pan(-40), Swipe(Left)]);
      && q.currentPage == 2 && q.scrollX == 632 && q.swiped && q.panning
      && Step(Wide(), q, PanEnd) == q.(swiped := false)
  {
    var lay := Wide();
    var ds := [-10, -40];
    var b := PansFromSecondPage(p1);
    var c := Step(lay, b, Swipe(Left));
    RoundDivUnique(632, 300, 2);
    assert c.scrollX == 632 && c.currentPage == 2;
    RunConcat(lay, p1, Pans(ds), [Swipe(Left)]);
    assert Pans(ds) + [Swipe(Left)] == [Pan(-10), Pan(-40), Swipe(Left)];
    assert Arbiter.Run(lay, b, [Swipe(Left)]) == c;
    SwipeExcludesPanEnd(lay, b, Left);
  }

  /**
    One gesture starting on page 1 of 5: two pans to the left, then a swipe to the left.
    The swipe moves to page 2 from the page the pan started on; the pan end that closes
    the same gesture does not snap again.
  */
  lemma SwipeResolvesGesture()
    ensures var p1 := Step(Wide(), Build(Wide(), Images(5)), DotClick(1));
      var q := Arbiter.Run(Wide(), p1, [Pan(-10), Pan(-40), Swipe(Left)]);
      && q.currentPage == 2 && q.scrollX == 632 && q.swiped && q.panning
      && Step(Wide(), q, PanEnd) == q.(swiped := false)
  {
    var p1 := OnSecondPage();
    GestureFromSecondPage(p1);
  }

  /**
    Wheel deltas 10, 40, 90, 95 on page 0 of 3: the first event has no predecessor and
    cannot jump; 40 is the first value above the threshold and above its predecessor, so
    the single jump happens there, and the cooldown swallows 90 and 95.
  */
  lemma WheelJumpsAtFirstRisingEdge()
    ensures var lay := Wide();
      var p0 := Build(lay, Images(3));
      var p2 := Arbiter.Run(lay, p0, [Wheel(10, 0), Wheel(40, 0)]);
      var p4 := Arbiter.Run(lay, p2, [Wheel(90, 0), Wheel(95, 0)]);
      && Step(lay, p0, Wheel(10, 0)) == p0.(lastWheelDeltaX := Some(10))
      && p2.currentPage == 1 && p2.scrollX == 316 && !p2.wheelEnabled
      && p4 == p2.(lastWheelDeltaX := Some(95))
  {
    var lay := Wide();
    var p0 := Build(lay, Images(3));
    var p1 := Step(lay, p0, Wheel(10, 0));
    assert p1 == p0.(lastWheelDeltaX := Some(10));
    assert WheelJumps(p1, 40, 0);
    var p2 := Step(lay, p1, Wheel(40, 0));
    RoundDivUnique(316, 300, 1);
    assert p2.currentPage == 1 && p2.scrollX == 316 && !p2.wheelEnabled;
    var es := [Wheel(10, 0), Wheel(40, 0)];
    assert es[1..] == [Wheel(40, 0)];
    assert Arbiter.Run(lay, p0, es) == p2;
    var p3 := Step(lay, p2, Wheel(90, 0));
    WheelCooldownIgnores(lay, p2, 90, 0);
    WheelCooldownIgnores(lay, p3, 95, 0);
    var fs := [Wheel(90, 0), Wheel(95, 0)];
    assert fs[1..] == [Wheel(95, 0)];
    assert Arbiter.Run(lay, p2, fs) == Step(lay, p3, Wheel(95, 0));
  }

  /**
    The current page is the offset divided by the page width alone, not by width plus
    spacing. With 20 px pages and two of them, aligning the last page makes the current
    page 2, one past the last index: no dot is active and page 0 is not prefetched.
  */
  lemma CurrentPageCanPassLastIndex()
    ensures var lay := Relayout(1024, 116);
      var p := Step(lay, Build(lay, Images(2)), DotClick(1));
      && lay.pageWidth == 20
      && p.scrollX == 36 && p.currentPage == 2 == |p.media|
      && p.loadedPages == {1}
      && forall i :: 0 <= i < |p.dots| ==> !p.dots[i]
  {
    var lay := Relayout(1024, 116);
    var p0 := Build(lay, Images(2));
    var p := Step(lay, p0, DotClick(1));
    RoundDivUnique(36, 20, 2);
    assert Window(2, 2) == {1} by {
      forall i ensures i in Window(2, 2) <==> i in {1} {
        WindowMembers(2, 2, i);
      }
    }
  }

  /**
    The same drift on realistic widths: with 13 pages of 300 px, aligning page 10 reports
    page 11, and the next-edge click then moves straight to page 12, so page 11 is never
    aligned by the edge clickers.
  */
  lemma NextEdgeSkipsAPage()
    ensures var lay := Wide();
      var p := Step(lay, Build(lay, Images(13)), DotClick(10));
      var q := Step(lay, p, NextEdgeClick);
      && p.scrollX == PageOffset(lay, 10) && p.currentPage == 11
      && q.scrollX == PageOffset(lay, 12) && q.currentPage == 13
  {
    var lay := Wide();
    var p := Step(lay, Build(lay, Images(13)), DotClick(10));
    RoundDivUnique(3160, 300, 11);
    RoundDivUnique(3792, 300, 13);
  }

  /**
    The other side of the drift: once a 13-page pager of 300 px is at its end it reports
    page 13, so prev-edge and a backward wheel jump target page 12, which is the clamped
    offset it already shows, and nothing moves.
  */
  lemma PrevEdgeStuckAtEnd()
    ensures var lay := Wide();
      var p := Step(lay, Build(lay, Images(13)), DotClick(12));
      && p.scrollX == MaxScroll(lay, 13) && p.currentPage == 13
      && Step(lay, p, PrevEdgeClick) == p
      && Step(lay, p.(lastWheelDeltaX := Some(0)), Wheel(-40, 0)).scrollX == p.scrollX
  {
    var lay := Wide();
    var p := Step(lay, Build(lay, Images(13)), DotClick(12));
    RoundDivUnique(3792, 300, 13);
    assert p.currentPage == 13;
    var q := Step(lay, p, PrevEdgeClick);
    assert q.scrollX == p.scrollX && q.currentPage == p.currentPage;
    assert WheelJumps(p.(lastWheelDeltaX := Some(0)), -40, 0);
  }

  /**
    A swipe reported while no pan start is recorded (-1) lands on page 0 whatever page is
    showing and whichever way it points, because the target is computed from the recorded
    start: -1 + 1 is page 0, and -1 - 1 saturates to page 0.
  */
  lemma SwipeWithoutPanStartGoesToFirstPage(lay: Layout, p: Pager, dir: Direction)
    requires Valid(lay) && Interactive(p) && p.pageAtPanStart == -1
    ensures Step(lay, p, Swipe(dir)).scrollX == 0 && Step(lay, p, Swipe(dir)).currentPage == 0
  {
    RoundDivUnique(0, lay.pageWidth, 0);
  }

  /** The same from page 3 of 5, after a dot click, which records no pan start. */
  lemma SwipeFromThirdDotGoesToFirstPage()
    ensures var lay := Wide();
      var p := Step(lay, Build(lay, Images(5)), DotClick(3));
      p.currentPage == 3 && p.pageAtPanStart == -1
      && Step(lay, p, Swipe(Left)).currentPage == 0
  {
    var lay := Wide();
    var p := Step(lay, Build(lay, Images(5)), DotClick(3));
    RoundDivUnique(948, 300, 3);
    SwipeWithoutPanStartGoesToFirstPage(lay, p, Left);
  }

  /**
    A window resize changes the shared page width without re-scrolling: a pager left on
    its last page at 316 px is beyond the 216 px maximum of the narrower layout.
  */
  lemma ResizeCanBreakClamp()
    ensures var wide := Wide();
      var narrow := Relayout(1024, 296);
      var p := Step(wide, Build(wide, Images(2)), DotClick(1));
      && Inv(wide, p) && p.scrollX == 316
      && narrow.pageWidth == 200 && MaxScroll(narrow, 2) == 216
      && !Inv(narrow, p)
  {
    var wide := Wide();
    var p0 := Build(wide, Images(2));
    var p := Step(wide, p0, DotClick(1));
    StepPreservesInv(wide, p0, DotClick(1));
  }

  /**
    The first page of a section on screen at start-up is loaded by the visibility path,
    outside the prefetch bookkeeping; the first navigation then prefetches it again, so
    its `loadPage` runs twice.
  */
  lemma FirstPageLoadedTwice()
    ensures var d := Boot(1024, 396, [[Video, Video, Video]], 800, 600, [Rect(0, 396, 300, 0)]);
      && d.sections[0].wasVisible && d.sections[0].pager.media[0].loads == 1
      && Apply(d, PagerInput(0, DotClick(1))).sections[0].pager.media[0].loads == 2
  {
    var d := Boot(1024, 396, [[Video, Video, Video]], 800, 600, [Rect(0, 396, 300, 0)]);
    var p := d.sections[0].pager;
    assert p.currentPage == 0 && p.loadedPages == {};
    var q := Step(d.lay, p, DotClick(1));
    RoundDivUnique(316, 300, 1);
    assert q.currentPage == 1;
    WindowMembers(1, 3, 0);
    assert 0 in Window(1, 3) - p.loadedPages;
  }
}

=== FILE: showcase.dfy ===
/**
  The whole document: the shared layout and every project section with its pager, as
  `$(document).ready` builds them, driven by pager events and by window scroll and
  resize. A resize re-runs `relayout_` and then `visibleProjectsUpdated_`; a scroll
  runs only the latter.
*/
module Showcase {
  import opened Geometry
  import opened Media
  import opened Carousel
  import opened Arbiter
  import opened Visibility

  datatype Document = Document(lay: Layout, sections: seq<Section>)

  /**
    Input to the document. Window events carry the new viewport size and the current
    bounding rectangle of every section; a resize also carries the screen and pager
    widths `relayout_` reads.
  */
  datatype Input =
    | PagerInput(section: int, event: Event)
    | WindowScrolled(width: int, height: int, rects: seq<Rect>)
    | WindowResized(screenWidth: int, pagerWidth: int, width: int, height: int, rects: seq<Rect>)

  /** Input the document can receive: events of an existing pager, a rectangle per section, pages of positive width. */
  predicate Admissible(count: int, input: Input)
  {
    match input
    case PagerInput(k, _) => 0 <= k < count
    case WindowScrolled(_, _, rects) => |rects| == count
    case WindowResized(sw, pw, _, _, rects) => Valid(Relayout(sw, pw)) && |rects| == count
  }

  /**
    Load bookkeeping of one section: requested indices lie within the pager, and each
    page has been loaded once if the prefetch gate recorded it plus, for the first page,
    once more if the section has been seen.
  */
  ghost predicate Accounted(s: Section)
  {
    && (forall i :: i in s.pager.loadedPages ==> 0 <= i < |s.pager.media|)
    && forall i :: 0 <= i < |s.pager.media| ==>
         && WellFormed(s.pager.media[i])
         && s.pager.media[i].loads ==
              (if i in s.pager.loadedPages then 1 else 0) + (if i == 0 && s.wasVisible then 1 else 0)
  }

  /** Every pager of the document holds the pager invariant under the current layout. */
  ghost predicate PagersInv(d: Document)
  {
    forall k :: 0 <= k < |d.sections| ==> Inv(d.lay, d.sections[k].pager)
  }

  ghost predicate DocInv(d: Document)
  {
    Valid(d.lay) && forall k :: 0 <= k < |d.sections| ==> Accounted(d.sections[k])
  }

  /**
    `$(document).ready`: lay out, build one pager per section from the kinds of its
    pages, then run the first visibility update, which loads the first page of every
    section already on screen.
  */
  function Boot(screenWidth: int, pagerWidth: int, pages: seq<seq<Kind>>,
                width: int, height: int, rects: seq<Rect>): (d: Document)
    requires Valid(Relayout(screenWidth, pagerWidth)) && |rects| == |pages|
    ensures d.lay == Relayout(screenWidth, pagerWidth) && |d.sections| == |pages|
    ensures DocInv(d) && PagersInv(d)
    ensures forall k :: 0 <= k < |pages| ==>
      && |d.sections[k].pager.media| == |pages[k]|
      && d.sections[k].pager.loadedPages == {}
      && d.sections[k].wasVisible == !OffScreen(rects[k], width, height)
    ensures forall k, i :: 0 <= k < |pages| && 0 <= i < |pages[k]| ==>
      d.sections[k].pager.media[i].loads == (if i == 0 && !OffScreen(rects[k], width, height) then 1 else 0)
  {
    var lay := Relayout(screenWidth, pagerWidth);
    var built := seq(|pages|, k requires 0 <= k < |pages| => Section(false, Build(lay, pages[k])));
    var d := Document(lay, UpdateVisibility(built, rects, width, height));
    assert forall k :: 0 <= k < |pages| ==> Accounted(d.sections[k]);
    assert PagersInv(d) by {
      forall k | 0 <= k < |pages|
        ensures Inv(lay, d.sections[k].pager)
      {
        RevealKeepsInv(lay, built[k], rects[k], width, height);
      }
    }
    d
  }

  function Apply(d: Document, input: Input): (r: Document)
    requires Valid(d.lay) && Admissible(|d.sections|, input)
    ensures Valid(r.lay) && |r.sections| == |d.sections|
    ensures input.PagerInput? ==>
      && r.lay == d.lay
      && r.sections[input.section] == d.sections[input.section].(pager := Step(d.lay, d.sections[input.section].pager, input.event))
      && forall k :: 0 <= k < |d.sections| && k != input.section ==> r.sections[k] == d.sections[k]
    ensures !input.PagerInput? ==> r.sections == UpdateVisibility(d.sections, input.rects, input.width, input.height)
    ensures input.WindowScrolled? ==> r.lay == d.lay
    ensures input.WindowResized? ==> r.lay == Relayout(input.screenWidth, input.pagerWidth)
  {
    match input
    case PagerInput(k, e) =>
      var s := d.sections[k];
      d.(sections := d.sections[k := s.(pager := Step(d.lay, s.pager, e))])
    case WindowScrolled(w, h, rects) =>
      d.(sections := UpdateVisibility(d.sections, rects, w, h))
    case WindowResized(sw, pw, w, h, rects) =>
      Document(Relayout(sw, pw), UpdateVisibility(d.sections, rects, w, h))
  }

  function RunInputs(d: Document, inputs: seq<Input>): (r: Document)
    requires Valid(d.lay)
    requires forall j :: 0 <= j < |inputs| ==> Admissible(|d.sections|, inputs[j])
    ensures Valid(r.lay) && |r.sections| == |d.sections|
    decreases |inputs|
  {
    if |inputs| == 0 then d else RunInputs(Apply(d, inputs[0]), inputs[1..])
  }

  lemma RevealKeepsAccounted(s: Section, rect: Rect, width: int, height: int)
    requires Accounted(s)
    ensures Accounted(Reveal(s, rect, width, height))
  {
  }

  lemma StepKeepsAccounted(lay: Layout, s: Section, e: Event)
    requires Valid(lay) && Accounted(s)
    ensures Accounted(s.(pager := Step(lay, s.pager, e)))
  {
    StepPreservesInv(lay, s.pager, e);
  }

  /** Every input keeps the load bookkeeping of every section. */
  lemma ApplyPreservesDocInv(d: Document, input: Input)
    requires DocInv(d) && Admissible(|d.sections|, input)
    ensures DocInv(Apply(d, input))
  {
    var r := Apply(d, input);
    if input.PagerInput? {
      StepKeepsAccounted(d.lay, d.sections[input.section], input.event);
    } else {
      forall k | 0 <= k < |d.sections|
        ensures Accounted(r.sections[k])
      {
        RevealKeepsAccounted(d.sections[k], input.rects[k], input.width, input.height);
      }
    }
  }

  lemma {:induction false} RunPreservesDocInv(d: Document, inputs: seq<Input>)
    requires DocInv(d)
    requires forall j :: 0 <= j < |inputs| ==> Admissible(|d.sections|, inputs[j])
    ensures DocInv(RunInputs(d, inputs))
    decreases |inputs|
  {
    if |inputs| > 0 {
      ApplyPreservesDocInv(d, inputs[0]);
      RunPreservesDocInv(Apply(d, inputs[0]), inputs[1..]);
    }
  }

  /**
    Pager events and window scrolls keep every pager's invariant. A resize is excluded:
    it changes the page width without re-scrolling, which can break the clamp.
  */
  lemma ApplyKeepsPagersInv(d: Document, input: Input)
    requires Valid(d.lay) && Admissible(|d.sections|, input) && !input.WindowResized?
    requires PagersInv(d)
    ensures PagersInv(Apply(d, input))
  {
    var r := Apply(d, input);
    if input.PagerInput? {
      StepPreservesInv(d.lay, d.sections[input.section].pager, input.event);
    } else {
      forall k | 0 <= k < |d.sections|
        ensures Inv(r.lay, r.sections[k].pager)
      {
        RevealKeepsInv(d.lay, d.sections[k], input.rects[k], input.width, input.height);
      }
    }
  }

  /** Between resizes, every reachable document keeps every pager's invariant. */
  lemma {:induction false} RunKeepsPagersInv(d: Document, inputs: seq<Input>)
    requires Valid(d.lay) && PagersInv(d)
    requires forall j :: 0 <= j < |inputs| ==> Admissible(|d.sections|, inputs[j])
    requires forall j :: 0 <= j < |inputs| ==> !inputs[j].WindowResized?
    ensures PagersInv(RunInputs(d, inputs))
    decreases |inputs|
  {
    if |inputs| > 0 {
      ApplyKeepsPagersInv(d, inputs[0]);
      RunKeepsPagersInv(Apply(d, inputs[0]), inputs[1..]);
    }
  }

  /**
    Consequence of the bookkeeping: the prefetch gate loads a page at most once, so only
    the first page, which the visibility path loads on its own, can be loaded twice.
  */
  lemma LoadsBounded(d: Document, k: int, i: int)
    requires DocInv(d) && 0 <= k < |d.sections| && 0 <= i < |d.sections[k].pager.media|
    ensures d.sections[k].pager.media[i].loads <= (if i == 0 then 2 else 1)
    ensures d.sections[k].pager.media[i].state == NotRequested <==>
              i !in d.sections[k].pager.loadedPages && !(i == 0 && d.sections[k].wasVisible)
  {
  }

  /** `input` is neither an event of section `k`'s pager nor a window event that finds it on screen. */
  predicate LeavesHidden(k: int, input: Input)
  {
    match input
    case PagerInput(s, _) => s != k
    case WindowScrolled(w, h, rects) => 0 <= k < |rects| && OffScreen(rects[k], w, h)
    case WindowResized(_, _, w, h, rects) => 0 <= k < |rects| && OffScreen(rects[k], w, h)
  }

  /**
    A section that receives no pager events and is off screen at every window event is
    left exactly as it was; in particular, if it was never seen, none of its media is
    requested.
  */
  lemma {:induction false} UnseenSectionUntouched(d: Document, inputs: seq<Input>, k: int)
    requires Valid(d.lay) && 0 <= k < |d.sections| && !d.sections[k].wasVisible
    requires forall j :: 0 <= j < |inputs| ==> Admissible(|d.sections|, inputs[j])
    requires forall j :: 0 <= j < |inputs| ==> LeavesHidden(k, inputs[j])
    ensures RunInputs(d, inputs).sections[k] == d.sections[k]
    decreases |inputs|
  {
    if |inputs| > 0 {
      var d' := Apply(d, inputs[0]);
      assert d'.sections[k] == d.sections[k];
      UnseenSectionUntouched(d', inputs[1..], k);
    }
  }
}

=== FILE: visibility.dfy ===
/**
  `visibleProjectsUpdated_`: on load, scroll and resize every project section not yet
  seen is tested against the viewport; the first time it intersects, the section is
  marked was-visible for good and the first page of its pager is loaded, bypassing the
  pager's own prefetch bookkeeping.
*/
module Visibility {
  import opened Geometry
  import opened Media
  import opened Carousel

  /** A bounding rectangle in viewport coordinates, in integer pixels. */
  datatype Rect = Rect(top: int, right: int, bottom: int, left: int)

  /**
    `visibleProjectsUpdated_`'s "not visible" test against a `width` x `height` viewport. A rectangle it
    calls off screen never shares a point with the viewport.
  */
  function OffScreen(r: Rect, width: int, height: int): (off: bool)
    ensures off ==> !Overlaps(r, width, height)
  {
    r.bottom < 0 || r.right < 0 || r.left > width || r.top > height
  }

  function Max(a: int, b: int): int
  {
    if a < b then b else a
  }

  function Min(a: int, b: int): int
  {
    if a < b then a else b
  }

  /** Reference definition: the rectangle and the closed viewport share a point. */
  predicate Overlaps(r: Rect, width: int, height: int)
  {
    Max(r.left, 0) <= Min(r.right, width) && Max(r.top, 0) <= Min(r.bottom, height)
  }

  /** For a proper rectangle, "not off screen" is exactly intersection with the viewport. */
  lemma OnScreenIffOverlaps(r: Rect, width: int, height: int)
    requires r.left <= r.right && r.top <= r.bottom && 0 <= width && 0 <= height
    ensures !OffScreen(r, width, height) <==> Overlaps(r, width, height)
  {
  }

  /** A project section with its pager and its sticky was-visible mark. */
  datatype Section = Section(wasVisible: bool, pager: Pager)

  /** `loadPage` on the first page of a pager, if it has one; nothing else changes. */
  function LoadFirstPage(p: Pager): (r: Pager)
    ensures r == p.(media := r.media) && |r.media| == |p.media|
    ensures |p.media| > 0 ==> r.media[0] == LoadPage(p.media[0])
    ensures forall i :: 0 < i < |p.media| ==> r.media[i] == p.media[i]
  {
    if |p.media| == 0 then p else p.(media := p.media[0 := LoadPage(p.media[0])])
  }

  /**
    One section's part of an update: a section already seen is not looked at again;
    one seen for the first time becomes was-visible and has its first page loaded.
  */
  function Reveal(s: Section, rect: Rect, width: int, height: int): (r: Section)
    ensures s.wasVisible ==> r == s
    ensures r.wasVisible <==> s.wasVisible || !OffScreen(rect, width, height)
    ensures !r.wasVisible ==> r == s
    ensures r.wasVisible && !s.wasVisible ==> r.pager == LoadFirstPage(s.pager)
  {
    if s.wasVisible || OffScreen(rect, width, height) then s
    else Section(true, LoadFirstPage(s.pager))
  }

  /**
    Loading the first page touches neither the offset, the current page, the dots nor the
    prefetch record, so it keeps the pager invariant.
  */
  lemma RevealKeepsInv(lay: Layout, s: Section, rect: Rect, width: int, height: int)
    requires Inv(lay, s.pager)
    ensures Inv(lay, Reveal(s, rect, width, height).pager)
  {
  }

  /** Indices of the sections never seen so far. */
  function NeverVisible(ss: seq<Section>): set<int>
  {
    set i | 0 <= i < |ss| && !ss[i].wasVisible
  }

  /** `visibleProjectsUpdated_` over all sections, given each one's current rectangle. */
  function UpdateVisibility(ss: seq<Section>, rects: seq<Rect>, width: int, height: int): (r: seq<Section>)
    requires |rects| == |ss|
    ensures |r| == |ss|
    ensures NeverVisible(r) == NeverVisible(ss) - (set i | 0 <= i < |ss| && !OffScreen(rects[i], width, height))
    ensures forall i :: 0 <= i < |ss| ==> r[i] == Reveal(ss[i], rects[i], width, height)
  {
    seq(|ss|, i requires 0 <= i < |ss| => Reveal(ss[i], rects[i], width, height))
  }
}

=== FILE: wrappers.dfy ===
/** An optional value, for JavaScript variables that start out `undefined`. */
module Wrappers {

  datatype Option<+T> = None | Some(value: T)
}
